=== FILE: README.md ===
# ufuncts in Dafny

A Dafny model of the pure helpers of `ufuncts.py`, a flat Python utility
library. The model covers:

- clamping with `minmax` (alias `truncate`);
- `argmax` and `argmin` over a dictionary;
- the choice of unit in `calc_bytes`;
- `concat`, `combine` and `match_pattern`;
- the file-name helpers `basename`, `basenames`, `extension` and `split_ext`;
- natural-order sorting: `atoi`, `natural_key` and `natural_sort`;
- the name computation at the start of `safe_overwrite`.

Strings are `seq<char>`, Python lists are sequences, dictionaries are maps,
and the values compared by `minmax`, `argmax` and `argmin` are integers.

The modules follow the library's groups of helpers:

- `Wrappers` has `Option`, used where Python raises or returns `None`.
- `Text` has the character classes and the string operations the helpers
  call: `str.isdigit`, `str.lower`, `str.strip` and `str.split`. They are
  restricted to ASCII. `Join` is the inverse of `Split` and is used to
  state the round trip of `split_ext`.
- `Numbers` has `minmax`, `argmax`/`argmin` and the unit of `calc_bytes`.
- `Collections` has `concat`, `combine` and `match_pattern`.
- `Paths` has the file-name helpers. The platform separator `os.sep` is the
  parameter `sep`.
- `Natural` has the following:
  - the scanner that computes `re.split('(\d+)', text)`;
  - `atoi` and `natural_key`;
  - Python's comparison of lists whose items are integers and strings;
  - `sorted` with a key, which gives `natural_sort`.
- `SafeWrite` has the destination, the temporary file name and the encoding
  that `safe_overwrite` settles before it touches any file.

`sorted` is written as an insertion sort over a generic key function.
Its contract has three parts:
- the result is a permutation;
- the keys are non-decreasing;
- it is stable: the items with any one key keep their order.

Python raises `TypeError` when a list comparison reaches an integer and a
string at the same position. That outcome is `None` in `CompareKeys`. The
model proves that two natural keys never reach it.

`safe_overwrite` (lines 225-247) writes the data to a temporary file.
It then removes the destination (lines 239-240) and renames the temporary
file onto it (line 242). It returns nothing. Lines 228-233 compute the
names, and they are what is modelled: the destination, the temporary name
and the encoding. The temporary name is the destination followed by an
extension that always starts with '.'.

## Model

| member | source | states |
|---|---|---|
| Numbers.MinMax | ufuncts.py:30-34 | When `lo <= hi`, the result lies in `[lo, hi]`. A value already in range is returned unchanged; a value below is raised to `lo`, and one above is lowered to `hi`. When `hi < lo`, the result is `hi`. |
| Numbers.MinMaxIdempotent | ufuncts.py:30-32 | Clamping an already clamped value changes nothing. |
| Numbers.MinMaxMonotone | ufuncts.py:30-32 | Clamping preserves the order of its inputs. |
| Numbers.ArgMax | ufuncts.py:36-38 | The result is `None` exactly when the dictionary is empty, where Python raises. Otherwise it is a key of the dictionary whose value is at least every other value. |
| Numbers.ArgMin | ufuncts.py:40-42 | The result is `None` exactly when the dictionary is empty. Otherwise it is a key of the dictionary whose value is at most every other value. |
| Numbers.ArgMinIsArgMaxOfNegation | ufuncts.py:36-42 | A key is an arg-min of `d` if and only if it is an arg-max of `d` with every value negated. |
| Numbers.SelectUnit | ufuncts.py:135-141 | A unit other than plain bytes is chosen only when `b` strictly exceeds its size. No larger unit's size is exceeded, so `b == 1024` is still reported in bytes. |
| Numbers.CalcBytesSuffix | ufuncts.py:135-141 | The suffix appended is the name of the unit `SelectUnit` picks. It is " bytes" exactly when `b` is at most 1024. |
| Numbers.ByteQuotient | ufuncts.py:139-141 | The number is the whole part of `b` divided by the size of the chosen unit: `q` units fit in `b` and `q + 1` do not. In plain bytes it is `b` itself. In a larger unit it is at least 1, and for kilo- and megabytes at most 1024. |
| Numbers.SelectUnitMonotone | ufuncts.py:139-141 | A larger byte count is never reported in a smaller unit. |
| Collections.Concat | ufuncts.py:156-158 | The length is the sum of the lengths. The first `len(L)` items are `L` and the rest are `R`. The multiset of items is the sum of the two. |
| Collections.Combine | ufuncts.py:160-162 | The keys are the union of both key sets. A key of `RD` maps to its `RD` value, which gives `RD` priority. A key only in `LD` keeps its `LD` value. |
| Collections.CombineIdentities | ufuncts.py:160-162 | Combining a map with itself, or with an empty map on either side, gives the map back. |
| Collections.CombineDisjointCommutes | ufuncts.py:160-162 | For maps with disjoint keys, the argument order does not matter. |
| Collections.MatchPattern | ufuncts.py:199-203 | With no pattern equal to `x`, the result is the default. Otherwise it is the result paired with the first pattern equal to `x`. |
| Collections.MatchPatternIsLookup | ufuncts.py:199-203 | `match_pattern` is a lookup with a default in the dictionary where the first occurrence of each pattern wins. |
| Paths.Basename | ufuncts.py:179-183 | The result is a suffix of the name. If `sep` occurs, the result contains no `sep` and follows one. Otherwise, if '/' occurs, the same holds for '/'. If neither occurs, the result is the whole name. |
| Paths.LastComponentUnique | ufuncts.py:181-182 | Exactly one suffix follows the separator and contains none: the last piece of the split. The contract of `Basename` therefore determines it. |
| Paths.Basenames | ufuncts.py:185-186 | The result has one entry per path, in order, and entry `i` is the base name of path `i`. So each entry is a suffix of its path and is free of `sep` when its path contains `sep`. |
| Paths.BasenamesAppend | ufuncts.py:185-186 | The comprehension works path by path: the base names of two lists put together are the base names of each list, put together. |
| Paths.Extension | ufuncts.py:188-191 | The result is `None` exactly when the name has no '.'. Otherwise it contains no '.', and the name ends with '.' followed by it. |
| Paths.ExtensionSeesDirectories | ufuncts.py:188-191 | The whole path is searched: the extension of "a.b/c" is "b/c". |
| Paths.SplitExt | ufuncts.py:193-197 | The result is empty exactly when the base name has no '.'. Otherwise it has at least two pieces, none containing '.', and joining them with '.' gives the base name. |
| Paths.SplitExtRoundTrip | ufuncts.py:193-197 | Splitting the joined pieces at '.' gives the pieces back. |
| Text.Lower | ufuncts.py:217 | The length is unchanged and each character is lowercased. The result has no capital letters. Digits stay digits and nothing else becomes one. A digit string is unchanged. |
| Text.Strip | ufuncts.py:228-229 | The result neither begins nor ends with white space and is no longer than the input. |
| Text.StripTrims | ufuncts.py:228-229 | The result is a slice of the input with only white space before and after it. |
| Text.StripPadded | ufuncts.py:228-229 | Stripping a stripped string padded with white space on both sides gives the string back. |
| Text.StripIdempotent | ufuncts.py:228-229 | Stripping twice is stripping once. |
| Text.Split | ufuncts.py:181-197 | `s.split(c)` gives at least one piece, and no piece contains `c`. |
| Text.JoinSplit | ufuncts.py:197 | Joining the pieces of `s.split(c)` with `c` gives `s` back. |
| Text.SplitSingle | ufuncts.py:181-191 | A string splits into a single piece exactly when it lacks the separator, and that piece is the string. |
| Text.LastPieceIsSuffix | ufuncts.py:181-191 | The last piece of a split is a suffix. When the separator occurs, the piece directly follows one. |
| Natural.Runs | ufuncts.py:217 | `re.split('(\d+)', text)` gives an odd number of runs. |
| Natural.RunsAreRunSplit | ufuncts.py:217 | The scanner's runs are what `re.split('(\d+)', s)` returns. There is an odd number of runs and they concatenate to `s`. Runs at even positions hold no digit. Runs at odd positions are non-empty digit strings. Only the first and last runs may be empty. |
| Natural.RunSplitUnique | ufuncts.py:217 | Any split with those properties equals the scanner's, so every digit run is maximal. |
| Natural.Atoi | ufuncts.py:211-213 | The result is a number exactly when the text is a non-empty digit string, and then it is the decimal value of the digits. Otherwise it is the text unchanged. |
| Natural.AtoiShow | ufuncts.py:211-213 | `atoi(str(n)) == n` for every natural number. |
| Natural.AtoiIgnoresLeadingZeros | ufuncts.py:211-213 | Leading zeros do not change the number: a numeral padded with any number of '0's reads back as its value, so `atoi("007") == 7`. |
| Natural.NaturalKey | ufuncts.py:215-217 | The key has one piece per run of `re.split('(\d+)', text)`, so its length is odd. Piece `i` at an even position is the lowercased text run `i`, a string with no digit and no capital letter. Piece `i` at an odd position is the integer value of digit run `i`. |
| Natural.NaturalKeyIgnoresCase | ufuncts.py:217 | Lowercasing the text first gives the same key. |
| Natural.NaturalKeysComparable | ufuncts.py:215-221 | Comparing two natural keys never puts an integer against a string, so it never raises `TypeError`. |
| Natural.MixedKeysIncomparable | ufuncts.py:211-217 | Lists that do not line up kind by kind can fail to compare. |
| Natural.CompareKeysFlip | ufuncts.py:219-221 | Swapping the operands of a list comparison flips its outcome. |
| Natural.CompareKeys | ufuncts.py:219-221 | Python's `<` on lists as `sorted` uses it. At the first position where the lists differ, the comparison of those two items decides. Two lists compare equal exactly when they are equal, and a proper prefix comes before the longer list. The `TypeError` case, `None`, is covered by Natural.NaturalKeysComparable and Natural.MixedKeysIncomparable. |
| Natural.CompareKeysTransitive | ufuncts.py:219-221 | "Less than" between lists is transitive. |
| Natural.NaturalKeyOrder | ufuncts.py:219-221 | `<=` on natural keys is total and transitive. |
| Natural.SortBy | ufuncts.py:219-221 | The result is a permutation of the input. |
| Natural.SortBySorted | ufuncts.py:219-221 | When every key lines up kind by kind, as natural keys do, the keys of the result are non-decreasing. |
| Natural.SortByStable | ufuncts.py:219-221 | For each key, the items with that key appear in the result in their original order. With `NaturalKey` as the key, strings with equal natural keys keep their relative order. |
| Natural.NaturalSort | ufuncts.py:219-221 | The result is a permutation of the input, and its natural keys are non-decreasing. |
| SafeWrite.NormalizeExtension | ufuncts.py:229-232 | The extension is stripped and starts with '.'. It is the stripped input exactly when that already starts with '.'. Otherwise it is '.' followed by the stripped input. |
| SafeWrite.Plan | ufuncts.py:228-233 | The destination is the stripped file name. The temporary name is the destination followed by the normalised extension, so it is longer and has a '.' right after the destination. In a mode containing 'b' the encoding is `None`. Otherwise it is the caller's encoding, which may itself be `None`. |
| SafeWrite.NormalizeExtensionIdempotent | ufuncts.py:229-232 | Normalising a normalised extension changes nothing. |
| SafeWrite.LeadingDotOptional | ufuncts.py:231-232 | Writing the leading '.' or leaving it out gives the same extension, when the extension does not already start with white space or '.'. |
| SafeWrite.TempAndDotTempAgree | ufuncts.py:225-233 | `temp_extension="temp"` and `temp_extension=".temp"` name the same temporary file. |

## Left out

- Printing, file-system walking, directory creation, reading, running and installing (`printl`, `printd`, `fileslist`, `subfileslist`, `generate_file_structure`, `construct_path`, `readf`, `runpy`, `print_self`, `_install`): these are file-system, process or console I/O.
- The timers and `bench`: they depend on the clock.
- `avg`, `get_mag`, and the rounded number that `calc_bytes` prints: these use floating point. The choice of unit, its suffix and the whole part of the quotient are modelled; the rounding to two decimals is not.
- `excerpt`: it depends on randomness.
- `formatNum` and `default`: these depend on Python's format mini-language and on truthiness of arbitrary objects.
- The file operations of `safe_overwrite` (lines 234-247): opening, writing, unlinking and renaming are I/O. The cleanup on failure at line 247 itself fails: it passes the file object instead of the temporary name to `os.path.exists`, and when `open` at line 236 fails, `tempfile` is unbound, so line 247 raises `UnboundLocalError`. That is not modelled.
- Text.IsDigit, Text.IsSpace, Text.ToLower: Python's `str.isdigit`, `\d`, `str.isspace` and `str.lower` are Unicode-aware. The model agrees with them on ASCII only.
- Numbers.ArgMax, Numbers.ArgMin: which of several equal extremes Python returns depends on dictionary order. Only extremality is promised.
- Numbers.MinMax, Numbers.ArgMax, Numbers.ArgMin: the values are integers. Python accepts any mutually comparable values.
- Natural.NaturalSort: the extra keyword arguments forwarded to `sorted` (such as `reverse`) are not modelled.
- Paths.SplitExt: Python returns an empty tuple or a list. Both are a sequence of strings here.
- Text.Strip: its own contract gives only the shape of the result. Text.StripTrims and Text.StripPadded together pin the result down.
- Text.Split: its own contract gives only the shape of the pieces. Text.JoinSplit and Text.SplitJoin together pin the result down.
- Natural.Runs: its own contract gives only the odd number of runs. Natural.RunsAreRunSplit and Natural.RunSplitUnique together pin the result down.
- Paths.Basename: `os.sep` is the parameter `sep` rather than a platform constant.

=== FILE: collections.dfy ===
/** The list and dictionary helpers of `ufuncts.py`: `concat`, `combine`
    and `match_pattern`. Python lists are sequences, dictionaries are maps,
    and the pattern list of `match_pattern` is a sequence of pairs. */
module Collections {

  /** `concat(L, R)` builds `[*L, *R]`: the items of `L` in order followed
      by the items of `R` in order. */
  function Concat<T>(L: seq<T>, R: seq<T>): (r: seq<T>)
    ensures |r| == |L| + |R|
    ensures r[..|L|] == L && r[|L|..] == R
    ensures multiset(r) == multiset(L) + multiset(R)
  {
    L + R
  }

  lemma ConcatAssociative<T>(A: seq<T>, B: seq<T>, C: seq<T>)
    ensures Concat(Concat(A, B), C) == Concat(A, Concat(B, C))
  {
  }

  /** `combine(LD, RD)` builds `{**LD, **RD}`: every key of either map,
      with the value from `RD` wherever `RD` has the key. */
  function Combine<K, V>(LD: map<K, V>, RD: map<K, V>): (r: map<K, V>)
    ensures r.Keys == LD.Keys + RD.Keys
    ensures forall k :: k in RD ==> r[k] == RD[k]
    ensures forall k :: k in LD && k !in RD ==> r[k] == LD[k]
  {
    LD + RD
  }

  /** Combining a map with itself, or with an empty map on either side,
      changes nothing. */
  lemma CombineIdentities<K, V>(m: map<K, V>)
    ensures Combine(m, m) == m
    ensures Combine(m, map[]) == m
    ensures Combine(map[], m) == m
  {
  }

  /** When no key is shared, the priority rule never fires and the order
      of the arguments does not matter. */
  lemma CombineDisjointCommutes<K, V>(LD: map<K, V>, RD: map<K, V>)
    requires LD.Keys !! RD.Keys
    ensures Combine(LD, RD) == Combine(RD, LD)
  {
  }

  /** Combining is associative: the rightmost map wins either way. */
  lemma CombineAssociative<K, V>(A: map<K, V>, B: map<K, V>, C: map<K, V>)
    ensures Combine(Combine(A, B), C) == Combine(A, Combine(B, C))
  {
  }

  /** `match_pattern(x, M, default)`: the result paired with the first
      pattern equal to `x`, or `default` when no pattern is. */
  function MatchPattern<T(==), R>(x: T, M: seq<(T, R)>, default: R): (r: R)
    ensures (forall i :: 0 <= i < |M| ==> M[i].0 != x) ==> r == default
    ensures forall i :: (0 <= i < |M| && M[i].0 == x
                         && forall j :: 0 <= j < i ==> M[j].0 != x) ==> r == M[i].1
    decreases |M|
  {
    if |M| == 0 then default
    else if M[0].0 == x then M[0].1
    else MatchPattern(x, M[1..], default)
  }

  /** The dictionary a pattern list stands for when earlier patterns take
      priority over later ones. */
  function FirstWins<T(==), R>(M: seq<(T, R)>): map<T, R>
    decreases |M|
  {
    if |M| == 0 then map[] else FirstWins(M[1..])[M[0].0 := M[0].1]
  }

  /** `match_pattern` is a dictionary lookup with a default, in the
      dictionary where the first occurrence of each pattern wins. */
  lemma {:induction false} MatchPatternIsLookup<T, R>(x: T, M: seq<(T, R)>, default: R)
    ensures MatchPattern(x, M, default)
            == if x in FirstWins(M) then FirstWins(M)[x] else default
    decreases |M|
  {
    if |M| > 0 && M[0].0 != x {
      MatchPatternIsLookup(x, M[1..], default);
    }
  }
}

=== FILE: natural.dfy ===
/** Natural-order sorting: `atoi`, `natural_key` and `natural_sort`.

    `natural_key(text)` cuts `text` with `re.split('(\d+)', text)` into
    alternating runs (text, digits, text, ..., text), lowercases each run
    and turns each digit run into the integer it spells. `natural_sort`
    sorts with these keys, comparing them the way Python compares lists. */
module Natural {
  import opened Wrappers
  import opened Text

  // ---------------------------------------------------------------------
  // re.split('(\d+)', text)
  // ---------------------------------------------------------------------

  /** The end of the digit-free run that starts at `i`. */
  function TextRunEnd(s: string, i: nat): (n: nat)
    requires i <= |s|
    ensures i <= n <= |s|
    ensures forall j :: i <= j < n ==> !IsDigit(s[j])
    ensures n < |s| ==> IsDigit(s[n])
    decreases |s| - i
  {
    if i < |s| && !IsDigit(s[i]) then TextRunEnd(s, i + 1) else i
  }

  /** The end of the digit run that starts at `i`. */
  function DigitRunEnd(s: string, i: nat): (n: nat)
    requires i <= |s|
    ensures i <= n <= |s|
    ensures forall j :: i <= j < n ==> IsDigit(s[j])
    ensures n < |s| ==> !IsDigit(s[n])
    decreases |s| - i
  {
    if i < |s| && IsDigit(s[i]) then DigitRunEnd(s, i + 1) else i
  }

  /** The postcondition of `TextRunEnd` has one solution only. */
  lemma TextRunEndIs(s: string, i: nat, n: nat)
    requires i <= n <= |s|
    requires forall j :: i <= j < n ==> !IsDigit(s[j])
    requires n < |s| ==> IsDigit(s[n])
    ensures TextRunEnd(s, i) == n
  {
  }

  /** The postcondition of `DigitRunEnd` has one solution only. */
  lemma DigitRunEndIs(s: string, i: nat, n: nat)
    requires i <= n <= |s|
    requires forall j :: i <= j < n ==> IsDigit(s[j])
    requires n < |s| ==> !IsDigit(s[n])
    ensures DigitRunEnd(s, i) == n
  {
  }

  function Flatten(parts: seq<string>): string
    decreases |parts|
  {
    if |parts| == 0 then [] else parts[0] + Flatten(parts[1..])
  }

  /** `r` is what `re.split('(\d+)', s)` returns: an odd number of runs
      that concatenate to `s`, digit-free runs at even positions and
      non-empty digit runs at odd positions, and no empty text run between
      two digit runs (so every digit run is maximal). Only the first and
      the last run may be empty. */
  ghost predicate IsRunSplit(r: seq<string>, s: string) {
    && |r| % 2 == 1
    && Flatten(r) == s
    && (forall i :: 0 <= i < |r| && i % 2 == 0 ==> NoDigit(r[i]))
    && (forall i :: 0 <= i < |r| && i % 2 == 1 ==> IsDigitString(r[i]))
    && (forall i :: 0 < i < |r| - 1 && i % 2 == 0 ==> |r[i]| > 0)
  }

  /** In the runs of a string that does not start with a digit, the first
      run is empty only when it is the only one. */
  lemma FirstRunNonEmpty(rest: seq<string>, u: string)
    requires IsRunSplit(rest, u)
    requires u == [] || !IsDigit(u[0])
    ensures |rest| > 1 ==> |rest[0]| > 0
  {
    if |rest| > 1 {
      assert Flatten(rest) == rest[0] + Flatten(rest[1..]);
      assert Flatten(rest[1..]) == rest[1] + Flatten(rest[1..][1..]);
      assert |rest[1]| > 0 && IsDigit(rest[1][0]);
    }
  }

  /** Prepending a text run and a digit run to the runs of a string that
      does not start with a digit gives the runs of the longer string. */
  lemma ConsRunSplit(a: string, b: string, rest: seq<string>, u: string)
    requires NoDigit(a) && IsDigitString(b) && IsRunSplit(rest, u)
    requires u == [] || !IsDigit(u[0])
    ensures IsRunSplit([a, b] + rest, a + b + u)
  {
    var r := [a, b] + rest;
    assert r[1..] == [b] + rest && ([b] + rest)[1..] == rest;
    assert Flatten(r) == a + b + u;
    FirstRunNonEmpty(rest, u);
    forall i | 0 < i < |r| - 1 && i % 2 == 0
      ensures |r[i]| > 0
    {
      assert r[i] == rest[i - 2];
    }
    forall i | 0 <= i < |r| && i % 2 == 0
      ensures NoDigit(r[i])
    {
      if i >= 2 { assert r[i] == rest[i - 2]; }
    }
    forall i | 0 <= i < |r| && i % 2 == 1
      ensures IsDigitString(r[i])
    {
      if i >= 2 { assert r[i] == rest[i - 2]; }
    }
  }

  /** The runs of `s[i..]`, scanned from the left: a maximal digit-free
      run, then a maximal digit run, then the runs of what is left. */
  function RunsFrom(s: string, i: nat): (r: seq<string>)
    requires i <= |s|
    ensures |r| % 2 == 1
    decreases |s| - i
  {
    var t := TextRunEnd(s, i);
    if t == |s| then [s[i..]]
    else
      var d := DigitRunEnd(s, t);
      [s[i..t], s[t..d]] + RunsFrom(s, d)
  }

  function Runs(s: string): (r: seq<string>)
    ensures |r| % 2 == 1
  {
    RunsFrom(s, 0)
  }

  lemma NoDigitSlice(s: string, i: nat, t: nat)
    requires i <= t <= |s| && forall j :: i <= j < t ==> !IsDigit(s[j])
    ensures NoDigit(s[i..t])
  {
    forall j | 0 <= j < t - i
      ensures !IsDigit(s[i..t][j])
    {
      assert s[i..t][j] == s[i + j];
    }
  }

  lemma AllDigitsSlice(s: string, i: nat, t: nat)
    requires i <= t <= |s| && forall j :: i <= j < t ==> IsDigit(s[j])
    ensures AllDigits(s[i..t])
  {
    forall j | 0 <= j < t - i
      ensures IsDigit(s[i..t][j])
    {
      assert s[i..t][j] == s[i + j];
    }
  }

  /** One step of the scanner: the text run and the digit run it cuts off
      have the right kind, and what is left does not start with a digit. */
  lemma RunsFromStep(s: string, i: nat, t: nat, d: nat)
    requires i <= |s| && t == TextRunEnd(s, i) < |s| && d == DigitRunEnd(s, t)
    ensures RunsFrom(s, i) == [s[i..t], s[t..d]] + RunsFrom(s, d)
    ensures NoDigit(s[i..t]) && IsDigitString(s[t..d])
    ensures d == |s| || !IsDigit(s[d..][0])
    ensures s[i..t] + s[t..d] + s[d..] == s[i..]
  {
    NoDigitSlice(s, i, t);
    AllDigitsSlice(s, t, d);
    if d < |s| {
      assert s[d..][0] == s[d];
    }
    assert s[i..t] + s[t..d] == s[i..d];
    assert s[i..d] + s[d..] == s[i..];
  }

  lemma {:induction false} RunsFromAreRunSplit(s: string, i: nat)
    requires i <= |s|
    ensures IsRunSplit(RunsFrom(s, i), s[i..])
    ensures i < |s| && !IsDigit(s[i]) ==> |RunsFrom(s, i)[0]| > 0
    decreases |s| - i
  {
    var t := TextRunEnd(s, i);
    if t == |s| {
      assert Flatten([s[i..]]) == s[i..] + Flatten([]);
      NoDigitSlice(s, i, |s|);
      assert s[i..|s|] == s[i..];
    } else {
      var d := DigitRunEnd(s, t);
      RunsFromStep(s, i, t, d);
      RunsFromAreRunSplit(s, d);
      ConsRunSplit(s[i..t], s[t..d], RunsFrom(s, d), s[d..]);
    }
  }

  /** The scanner computes what `re.split('(\d+)', s)` returns. */
  lemma RunsAreRunSplit(s: string)
    ensures IsRunSplit(Runs(s), s)
    ensures |s| > 0 && !IsDigit(s[0]) ==> |Runs(s)[0]| > 0
  {
    RunsFromAreRunSplit(s, 0);
    assert s[0..] == s;
  }

  /** Dropping the first text run and the first digit run leaves the runs
      of the rest of the string. */
  lemma RunSplitTail(r: seq<string>, s: string)
    requires IsRunSplit(r, s) && |r| > 1
    ensures IsRunSplit(r[2..], Flatten(r[2..]))
    ensures s == r[0] + (r[1] + Flatten(r[2..]))
    ensures Flatten(r[2..]) == [] || !IsDigit(Flatten(r[2..])[0])
  {
    var rest := r[2..];
    var u := Flatten(rest);
    assert r[1..][1..] == rest;
    assert Flatten(r) == r[0] + Flatten(r[1..]);
    assert Flatten(r[1..]) == r[1] + u;
    forall i | 0 <= i < |rest| && i % 2 == 0
      ensures NoDigit(rest[i])
    {
      assert rest[i] == r[i + 2];
    }
    forall i | 0 <= i < |rest| && i % 2 == 1
      ensures IsDigitString(rest[i])
    {
      assert rest[i] == r[i + 2];
    }
    forall i | 0 < i < |rest| - 1 && i % 2 == 0
      ensures |rest[i]| > 0
    {
      assert rest[i] == r[i + 2];
    }
    assert u == rest[0] + Flatten(rest[1..]);
    if |rest| > 1 {
      assert rest[0] == r[2] && |r[2]| > 0;
      assert u[0] == rest[0][0];
    } else {
      assert Flatten(rest[1..]) == [];
    }
  }

  /** Where the first two runs of a split of `s[i..]` end, the scanner
      ends its first two runs too. */
  lemma RunBoundaries(r: seq<string>, s: string, i: nat)
    requires i <= |s| && IsRunSplit(r, s[i..]) && |r| > 1
    ensures TextRunEnd(s, i) == i + |r[0]| < |s|
    ensures DigitRunEnd(s, i + |r[0]|) == i + |r[0]| + |r[1]| <= |s|
    ensures s[i..i + |r[0]|] == r[0] && s[i + |r[0]|..i + |r[0]| + |r[1]|] == r[1]
    ensures IsRunSplit(r[2..], s[i + |r[0]| + |r[1]|..])
  {
    var x := s[i..];
    var a, b, rest := r[0], r[1], r[2..];
    var u := Flatten(rest);
    RunSplitTail(r, x);
    var t, d := i + |a|, i + |a| + |b|;
    assert x == a + (b + u);
    forall j | i <= j < t
      ensures !IsDigit(s[j])
    {
      assert s[j] == x[j - i] == a[j - i];
    }
    assert s[t] == x[|a|] == b[0];
    TextRunEndIs(s, i, t);
    forall j | t <= j < d
      ensures IsDigit(s[j])
    {
      assert s[j] == x[j - i] == b[j - t];
    }
    if d < |s| {
      assert s[d] == x[d - i] == u[0];
    }
    DigitRunEndIs(s, t, d);
    assert s[i..t] == a && s[t..d] == b && s[d..] == u;
  }

  /** A split into a single run leaves the scanner nothing to cut. */
  lemma SingleRun(r: seq<string>, s: string, i: nat)
    requires i <= |s| && IsRunSplit(r, s[i..]) && |r| == 1
    ensures RunsFrom(s, i) == r
  {
    assert Flatten(r) == r[0] + Flatten([]);
    assert r[0] == s[i..];
    forall j | i <= j < |s|
      ensures !IsDigit(s[j])
    {
      assert s[j] == r[0][j - i];
    }
    TextRunEndIs(s, i, |s|);
  }

  lemma {:induction false} RunSplitUniqueFrom(r: seq<string>, s: string, i: nat)
    requires i <= |s| && IsRunSplit(r, s[i..])
    ensures r == RunsFrom(s, i)
    decreases |r|
  {
    if |r| == 1 {
      SingleRun(r, s, i);
    } else {
      var t := i + |r[0]|;
      var d := t + |r[1]|;
      RunBoundaries(r, s, i);
      RunSplitUniqueFrom(r[2..], s, d);
      UniqueStep(r, s, i, t, d);
    }
  }

  /** The inductive step of `RunSplitUniqueFrom`. */
  lemma UniqueStep(r: seq<string>, s: string, i: nat, t: nat, d: nat)
    requires |r| > 1 && i <= |s|
    requires t == TextRunEnd(s, i) < |s| && d == DigitRunEnd(s, t)
    requires s[i..t] == r[0] && s[t..d] == r[1] && r[2..] == RunsFrom(s, d)
    ensures r == RunsFrom(s, i)
  {
    RunsFromStep(s, i, t, d);
    assert r == [r[0], r[1]] + r[2..];
  }

  /** The conditions of `IsRunSplit` determine the runs: any split that
      meets them is the one `Runs` computes. */
  lemma RunSplitUnique(r: seq<string>, s: string)
    requires IsRunSplit(r, s)
    ensures r == Runs(s)
  {
    assert s[0..] == s;
    RunSplitUniqueFrom(r, s, 0);
  }

  // ---------------------------------------------------------------------
  // atoi
  // ---------------------------------------------------------------------

  /** A key piece: a run of text or the integer a digit run spells. */
  datatype Piece = Str(s: string) | Num(n: nat)

  function DigitValue(c: char): nat
    requires IsDigit(c)
  {
    c as int - '0' as int
  }

  /** The number a string of decimal digits spells; `int(text)`. */
  function DecimalValue(s: string): nat
    requires AllDigits(s)
    decreases |s|
  {
    if |s| == 0 then 0 else 10 * DecimalValue(s[..|s| - 1]) + DigitValue(s[|s| - 1])
  }

  function DigitChar(d: nat): (c: char)
    requires d < 10
    ensures IsDigit(c) && DigitValue(c) == d
  {
    ('0' as int + d) as char
  }

  /** The decimal numeral of `n` without leading zeros; `str(n)`. */
  function Show(n: nat): (s: string)
    ensures IsDigitString(s)
    decreases n
  {
    if n < 10 then [DigitChar(n)] else Show(n / 10) + [DigitChar(n % 10)]
  }

  /** `int(str(n)) == n`. */
  lemma {:induction false} ShowRoundTrip(n: nat)
    ensures DecimalValue(Show(n)) == n
    decreases n
  {
    if n >= 10 {
      ShowRoundTrip(n / 10);
      var s := Show(n);
      assert s[..|s| - 1] == Show(n / 10);
    }
  }

  /** `atoi(text)`: the integer a digit string spells, any other text
      unchanged. */
  function Atoi(text: string): (p: Piece)
    ensures p.Num? <==> IsDigitString(text)
    ensures p.Str? ==> p.s == text
    ensures p.Num? ==> p.n == DecimalValue(text)
  {
    if IsDigitString(text) then Num(DecimalValue(text)) else Str(text)
  }

  /** A leading zero does not change the value of a digit string. */
  lemma {:induction false} DecimalValueLeadingZero(s: string)
    requires AllDigits(s)
    ensures DecimalValue(['0'] + s) == DecimalValue(s)
    decreases |s|
  {
    if |s| > 0 {
      var t := ['0'] + s;
      assert t[..|t| - 1] == ['0'] + s[..|s| - 1];
      DecimalValueLeadingZero(s[..|s| - 1]);
    }
  }

  /** `atoi` ignores leading zeros: `atoi("007") == 7`. Any numeral padded
      with `k` zeros reads back as its number. */
  lemma {:induction false} AtoiIgnoresLeadingZeros(k: nat, n: nat)
    ensures Atoi(seq(k, _ => '0') + Show(n)) == Num(n)
    decreases k
  {
    if k == 0 {
      assert seq(k, _ => '0') + Show(n) == Show(n);
      AtoiShow(n);
    } else {
      var rest := seq(k - 1, _ => '0') + Show(n);
      AtoiIgnoresLeadingZeros(k - 1, n);
      assert seq(k, _ => '0') + Show(n) == ['0'] + rest;
      DecimalValueLeadingZero(rest);
    }
  }

  /** `atoi` reads back every numeral `str` writes. */
  lemma AtoiShow(n: nat)
    ensures Atoi(Show(n)) == Num(n)
  {
    ShowRoundTrip(n);
  }

  // ---------------------------------------------------------------------
  // natural_key
  // ---------------------------------------------------------------------

  /** The shape every natural key has: an odd number of pieces, lowercase
      digit-free text at even positions, integers at odd positions. */
  predicate WellFormedKey(k: seq<Piece>) {
    && |k| % 2 == 1
    && (forall i :: 0 <= i < |k| && i % 2 == 0 ==> k[i].Str? && NoDigit(k[i].s) && NoUpper(k[i].s))
    && (forall i :: 0 <= i < |k| && i % 2 == 1 ==> k[i].Num?)
  }

  /** `natural_key(text)`: `atoi` of every lowercased run of `text`. Piece
      by piece, the key holds the lowercased text runs at even positions and
      the values of the maximal digit runs at odd positions. */
  function NaturalKey(text: string): (k: seq<Piece>)
    ensures WellFormedKey(k)
    ensures |k| == |Runs(text)|
    ensures forall i :: 0 <= i < |Runs(text)| && i % 2 == 0
                        ==> NoDigit(Runs(text)[i]) && k[i] == Str(Lower(Runs(text)[i]))
    ensures forall i :: 0 <= i < |Runs(text)| && i % 2 == 1
                        ==> IsDigitString(Runs(text)[i]) && k[i] == Num(DecimalValue(Runs(text)[i]))
  {
    var runs := Runs(text);
    RunsAreRunSplit(text);
    seq(|runs|, i requires 0 <= i < |runs| => Atoi(Lower(runs[i])))
  }

  function LowerAll(r: seq<string>): (lr: seq<string>)
    ensures |lr| == |r|
    ensures forall i :: 0 <= i < |r| ==> lr[i] == Lower(r[i])
  {
    seq(|r|, i requires 0 <= i < |r| => Lower(r[i]))
  }

  /** Lowercasing keeps the shape of a split: digits stay digits and
      nothing else becomes one. */
  lemma LowerRunSplit(r: seq<string>, s: string)
    requires IsRunSplit(r, s)
    ensures IsRunSplit(LowerAll(r), Lower(s))
  {
    var lr := LowerAll(r);
    FlattenLower(r);
    forall i | 0 < i < |lr| - 1 && i % 2 == 0
      ensures |lr[i]| > 0
    {
      assert |lr[i]| == |r[i]|;
    }
    forall i | 0 <= i < |lr| && i % 2 == 1
      ensures IsDigitString(lr[i])
    {
      assert lr[i] == r[i];
    }
  }

  /** Lowercasing the whole text first gives the same key: the key ignores
      case, and lowercasing before or after the split is the same. */
  lemma NaturalKeyIgnoresCase(text: string)
    ensures NaturalKey(Lower(text)) == NaturalKey(text)
  {
    var r := Runs(text);
    RunsAreRunSplit(text);
    LowerRunSplit(r, text);
    RunSplitUnique(LowerAll(r), Lower(text));
    var k1, k2 := NaturalKey(Lower(text)), NaturalKey(text);
    assert |k1| == |k2|;
    forall i | 0 <= i < |k1|
      ensures k1[i] == k2[i]
    {
      assert k1[i] == Atoi(Lower(Lower(r[i])));
      assert k2[i] == Atoi(Lower(r[i]));
      LowerIdempotent(r[i]);
    }
  }

  lemma {:induction false} FlattenLower(r: seq<string>)
    ensures Flatten(LowerAll(r)) == Lower(Flatten(r))
    decreases |r|
  {
    var lr := LowerAll(r);
    if |r| > 0 {
      FlattenLower(r[1..]);
      assert lr[1..] == LowerAll(r[1..]);
      assert Lower(r[0] + Flatten(r[1..])) == Lower(r[0]) + Lower(Flatten(r[1..]));
    }
  }

  // ---------------------------------------------------------------------
  // Python's comparison of keys
  // ---------------------------------------------------------------------

  datatype Ordering = Less | Equal | Greater {
    function Flip(): Ordering {
      match this
      case Less => Greater
      case Equal => Equal
      case Greater => Less
    }
  }

  function CompareInt(a: int, b: int): Ordering {
    if a < b then Less else if a == b then Equal else Greater
  }

  /** Python's comparison of strings: lexicographic by code point, a
      proper prefix before the longer string. */
  function CompareStr(a: string, b: string): Ordering
    decreases |a|
  {
    if |a| == 0 then (if |b| == 0 then Equal else Less)
    else if |b| == 0 then Greater
    else if a[0] < b[0] then Less
    else if b[0] < a[0] then Greater
    else CompareStr(a[1..], b[1..])
  }

  /** Comparing two pieces: numbers with numbers and text with text; a
      number against text is Python's `TypeError`, here `None`. */
  function ComparePiece(a: Piece, b: Piece): (r: Option<Ordering>)
    ensures r.None? <==> a.Num? != b.Num?
  {
    match (a, b)
    case (Num(x), Num(y)) => Some(CompareInt(x, y))
    case (Str(x), Str(y)) => Some(CompareStr(x, y))
    case _ => None
  }

  /** Python's comparison of two lists: the first position where they
      differ decides, and a proper prefix comes first. */
  function CompareKeys(a: seq<Piece>, b: seq<Piece>): (r: Option<Ordering>)
    ensures r == Some(Equal) <==> a == b
    ensures |a| < |b| && a == b[..|a|] ==> r == Some(Less)
    ensures forall i :: 0 <= i < |a| && i < |b| && a[..i] == b[..i] && a[i] != b[i]
                        ==> r == ComparePiece(a[i], b[i])
    decreases |a|
  {
    if |a| == 0 then Some(if |b| == 0 then Equal else Less)
    else if |b| == 0 then Some(Greater)
    else if a[0] == b[0] then
      assert a == [a[0]] + a[1..] && b == [b[0]] + b[1..];
      assert |a| < |b| && a == b[..|a|] ==> a[1..] == b[1..][..|a| - 1];
      var r := CompareKeys(a[1..], b[1..]);
      FirstDifferenceStep(a, b, r);
      r
    else
      if a[0].Str? && b[0].Str? then CompareStrEqual(a[0].s, b[0].s); ComparePiece(a[0], b[0])
      else ComparePiece(a[0], b[0])
  }

  /** A first difference of `a` and `b` behind an equal head is a first
      difference of their tails. */
  lemma FirstDifferenceStep(a: seq<Piece>, b: seq<Piece>, r: Option<Ordering>)
    requires |a| > 0 && |b| > 0 && a[0] == b[0]
    requires forall j :: 0 <= j < |a| - 1 && j < |b| - 1 && a[1..][..j] == b[1..][..j] && a[1..][j] != b[1..][j]
                         ==> r == ComparePiece(a[1..][j], b[1..][j])
    ensures forall i :: 0 <= i < |a| && i < |b| && a[..i] == b[..i] && a[i] != b[i]
                        ==> r == ComparePiece(a[i], b[i])
  {
    forall i | 0 <= i < |a| && i < |b| && a[..i] == b[..i] && a[i] != b[i]
      ensures r == ComparePiece(a[i], b[i])
    {
      assert i != 0;
      assert a[1..][..i - 1] == a[..i][1..];
      assert b[1..][..i - 1] == b[..i][1..];
      assert a[1..][i - 1] == a[i] && b[1..][i - 1] == b[i];
    }
  }

  function FlipResult(o: Option<Ordering>): Option<Ordering> {
    if o.Some? then Some(o.value.Flip()) else None
  }

  /** Pieces whose kinds alternate, with text at positions of parity `p`. */
  ghost predicate Aligned(k: seq<Piece>, p: nat) {
    forall i :: 0 <= i < |k| ==> (k[i].Str? <==> (i + p) % 2 == 0)
  }

  lemma {:induction false} AlignedKeysComparable(a: seq<Piece>, b: seq<Piece>, p: nat)
    requires Aligned(a, p) && Aligned(b, p)
    ensures CompareKeys(a, b).Some?
    decreases |a|
  {
    if |a| > 0 && |b| > 0 && a[0] == b[0] {
      assert Aligned(a[1..], p + 1) by {
        forall i | 0 <= i < |a[1..]|
          ensures (a[1..][i].Str? <==> (i + p + 1) % 2 == 0)
        {
          assert a[1..][i] == a[i + 1];
        }
      }
      assert Aligned(b[1..], p + 1) by {
        forall i | 0 <= i < |b[1..]|
          ensures (b[1..][i].Str? <==> (i + p + 1) % 2 == 0)
        {
          assert b[1..][i] == b[i + 1];
        }
      }
      AlignedKeysComparable(a[1..], b[1..], p + 1);
    } else if |a| > 0 && |b| > 0 {
      assert a[0].Str? <==> b[0].Str?;
    }
  }

  /** Natural keys line up kind by kind, so comparing any two of them never
      puts an integer against a string. */
  lemma NaturalKeysComparable(x: string, y: string)
    ensures CompareKeys(NaturalKey(x), NaturalKey(y)).Some?
  {
    var a, b := NaturalKey(x), NaturalKey(y);
    assert Aligned(a, 0) && Aligned(b, 0);
    AlignedKeysComparable(a, b, 0);
  }

  /** Without that alignment Python's comparison can fail. */
  lemma MixedKeysIncomparable()
    ensures CompareKeys([Num(1)], [Str("a")]).None?
  {
  }

  lemma {:induction false} CompareStrFlip(a: string, b: string)
    ensures CompareStr(b, a) == CompareStr(a, b).Flip()
    decreases |a|
  {
    if |a| > 0 && |b| > 0 && a[0] == b[0] {
      CompareStrFlip(a[1..], b[1..]);
    }
  }

  lemma {:induction false} CompareStrEqual(a: string, b: string)
    ensures CompareStr(a, b) == Equal <==> a == b
    decreases |a|
  {
    if |a| > 0 && |b| > 0 && a[0] == b[0] {
      CompareStrEqual(a[1..], b[1..]);
      assert a == [a[0]] + a[1..] && b == [b[0]] + b[1..];
    }
  }

  lemma {:induction false} CompareStrTransitive(a: string, b: string, c: string)
    requires CompareStr(a, b) == Less && CompareStr(b, c) == Less
    ensures CompareStr(a, c) == Less
    decreases |a|
  {
    if |a| > 0 && |b| > 0 && |c| > 0 && a[0] == b[0] && b[0] == c[0] {
      CompareStrTransitive(a[1..], b[1..], c[1..]);
    }
  }

  lemma ComparePieceFacts(x: Piece, y: Piece)
    ensures ComparePiece(y, x) == FlipResult(ComparePiece(x, y))
    ensures ComparePiece(x, y) == Some(Equal) <==> x == y
  {
    if x.Str? && y.Str? {
      CompareStrFlip(x.s, y.s);
      CompareStrEqual(x.s, y.s);
    }
  }

  lemma ComparePieceTransitive(x: Piece, y: Piece, z: Piece)
    requires ComparePiece(x, y) == Some(Less) && ComparePiece(y, z) == Some(Less)
    ensures ComparePiece(x, z) == Some(Less)
  {
    if x.Str? {
      CompareStrTransitive(x.s, y.s, z.s);
    }
  }

  /** Swapping the operands flips the outcome. */
  lemma {:induction false} CompareKeysFlip(a: seq<Piece>, b: seq<Piece>)
    ensures CompareKeys(b, a) == FlipResult(CompareKeys(a, b))
    decreases |a|
  {
    if |a| > 0 && |b| > 0 {
      if a[0] == b[0] {
        CompareKeysFlip(a[1..], b[1..]);
      } else {
        ComparePieceFacts(a[0], b[0]);
      }
    }
  }

  /** "Less than" between lists is transitive. */
  lemma {:induction false} CompareKeysTransitive(a: seq<Piece>, b: seq<Piece>, c: seq<Piece>)
    requires CompareKeys(a, b) == Some(Less) && CompareKeys(b, c) == Some(Less)
    ensures CompareKeys(a, c) == Some(Less)
    decreases |a|
  {
    if |a| > 0 && |b| > 0 && |c| > 0 {
      if a[0] == b[0] && b[0] == c[0] {
        CompareKeysTransitive(a[1..], b[1..], c[1..]);
      } else if a[0] != b[0] && b[0] != c[0] {
        ComparePieceTransitive(a[0], b[0], c[0]);
        ComparePieceFacts(a[0], c[0]);
      }
    }
  }

  // ---------------------------------------------------------------------
  // natural_sort
  // ---------------------------------------------------------------------

  /** `a <= b` for keys in Python. */
  predicate KeyLe(a: seq<Piece>, b: seq<Piece>) {
    var c := CompareKeys(a, b);
    c == Some(Less) || c == Some(Equal)
  }

  lemma KeyLeTransitive(a: seq<Piece>, b: seq<Piece>, c: seq<Piece>)
    requires KeyLe(a, b) && KeyLe(b, c)
    ensures KeyLe(a, c)
  {
    if a != b && b != c {
      CompareKeysTransitive(a, b, c);
    }
  }

  /** Well-formed keys are always ordered one way or the other. */
  lemma KeyLeTotal(a: seq<Piece>, b: seq<Piece>)
    requires WellFormedKey(a) && WellFormedKey(b)
    ensures KeyLe(a, b) || KeyLe(b, a)
  {
    assert Aligned(a, 0) && Aligned(b, 0);
    AlignedKeysComparable(a, b, 0);
    CompareKeysFlip(a, b);
  }

  /** Natural keys form a total preorder. */
  lemma NaturalKeyOrder(x: string, y: string, z: string)
    ensures KeyLe(NaturalKey(x), NaturalKey(y)) || KeyLe(NaturalKey(y), NaturalKey(x))
    ensures KeyLe(NaturalKey(x), NaturalKey(y)) && KeyLe(NaturalKey(y), NaturalKey(z))
            ==> KeyLe(NaturalKey(x), NaturalKey(z))
  {
    KeyLeTotal(NaturalKey(x), NaturalKey(y));
    if KeyLe(NaturalKey(x), NaturalKey(y)) && KeyLe(NaturalKey(y), NaturalKey(z)) {
      KeyLeTransitive(NaturalKey(x), NaturalKey(y), NaturalKey(z));
    }
  }

  ghost predicate KeysWellFormed<T>(r: seq<T>, key: T -> seq<Piece>) {
    forall i :: 0 <= i < |r| ==> WellFormedKey(key(r[i]))
  }

  ghost predicate SortedBy<T>(r: seq<T>, key: T -> seq<Piece>) {
    forall i, j :: 0 <= i < j < |r| ==> KeyLe(key(r[i]), key(r[j]))
  }

  /** The items of `r` whose key is `k`, in order. */
  function KeyFilter<T>(r: seq<T>, key: T -> seq<Piece>, k: seq<Piece>): seq<T>
    decreases |r|
  {
    if |r| == 0 then []
    else (if key(r[0]) == k then [r[0]] else []) + KeyFilter(r[1..], key, k)
  }

  lemma KeyFilterCons<T>(y: T, t: seq<T>, key: T -> seq<Piece>, k: seq<Piece>)
    ensures KeyFilter([y] + t, key, k) == (if key(y) == k then [y] else []) + KeyFilter(t, key, k)
  {
    assert ([y] + t)[1..] == t;
  }

  /** Putting an item whose key is no larger than any key of a sorted
      sequence in front keeps it sorted. */
  lemma SortedCons<T>(y: T, t: seq<T>, key: T -> seq<Piece>)
    requires SortedBy(t, key)
    requires forall j :: 0 <= j < |t| ==> KeyLe(key(y), key(t[j]))
    ensures SortedBy([y] + t, key)
  {
    var r := [y] + t;
    forall i, j | 0 <= i < j < |r|
      ensures KeyLe(key(r[i]), key(r[j]))
    {
      assert r[j] == t[j - 1];
      if i > 0 {
        assert r[i] == t[i - 1];
      }
    }
  }

  /** The step of `Insert` that places `x` in front of `r`. */
  lemma InsertFront<T>(x: T, r: seq<T>, key: T -> seq<Piece>)
    requires SortedBy(r, key) && |r| > 0 && KeyLe(key(x), key(r[0]))
    ensures SortedBy([x] + r, key)
  {
    forall j | 0 <= j < |r|
      ensures KeyLe(key(x), key(r[j]))
    {
      if j > 0 {
        KeyLeTransitive(key(x), key(r[0]), key(r[j]));
      }
    }
    SortedCons(x, r, key);
  }

  /** The step of `Insert` that keeps `r[0]` in front and inserts `x` into
      the rest, giving `t`: the result stays sorted. */
  lemma InsertBehind<T>(x: T, r: seq<T>, t: seq<T>, key: T -> seq<Piece>)
    requires |r| > 0 && SortedBy(r, key) && !KeyLe(key(x), key(r[0]))
    requires WellFormedKey(key(x)) && WellFormedKey(key(r[0]))
    requires SortedBy(t, key) && multiset(t) == multiset(r[1..]) + multiset{x}
    ensures SortedBy([r[0]] + t, key)
  {
    KeyLeTotal(key(x), key(r[0]));
    forall j | 0 <= j < |t|
      ensures KeyLe(key(r[0]), key(t[j]))
    {
      assert t[j] in multiset(t);
      if t[j] != x {
        assert t[j] in r[1..];
        var m :| 0 <= m < |r[1..]| && r[1..][m] == t[j];
        assert r[m + 1] == t[j];
      }
    }
    SortedCons(r[0], t, key);
  }

  /** Inserts `x` before the first item of `r` whose key is not smaller
      than the key of `x`. */
  function Insert<T>(x: T, r: seq<T>, key: T -> seq<Piece>): (r': seq<T>)
    ensures multiset(r') == multiset(r) + multiset{x}
    decreases |r|
  {
    if |r| == 0 then [x]
    else if KeyLe(key(x), key(r[0])) then [x] + r
    else
      assert r == [r[0]] + r[1..];
      [r[0]] + Insert(x, r[1..], key)
  }

  /** Inserting into a sorted sequence keeps it sorted. */
  lemma {:induction false} InsertSorted<T>(x: T, r: seq<T>, key: T -> seq<Piece>)
    requires WellFormedKey(key(x)) && KeysWellFormed(r, key) && SortedBy(r, key)
    ensures SortedBy(Insert(x, r, key), key)
    ensures KeysWellFormed(Insert(x, r, key), key)
    decreases |r|
  {
    if |r| == 0 {
      assert Insert(x, r, key) == [x];
    } else if KeyLe(key(x), key(r[0])) {
      InsertFront(x, r, key);
      ConsWellFormed(x, r, key);
    } else {
      TailSorted(r, key);
      var t := Insert(x, r[1..], key);
      InsertSorted(x, r[1..], key);
      InsertBehind(x, r, t, key);
      ConsWellFormed(r[0], t, key);
      assert Insert(x, r, key) == [r[0]] + t;
    }
  }

  lemma TailSorted<T>(r: seq<T>, key: T -> seq<Piece>)
    requires |r| > 0 && KeysWellFormed(r, key) && SortedBy(r, key)
    ensures KeysWellFormed(r[1..], key) && SortedBy(r[1..], key)
  {
    forall i, j | 0 <= i < j < |r| - 1
      ensures KeyLe(key(r[1..][i]), key(r[1..][j]))
    {
      assert r[1..][i] == r[i + 1] && r[1..][j] == r[j + 1];
    }
    TailWellFormed(r, key);
  }

  lemma TailWellFormed<T>(r: seq<T>, key: T -> seq<Piece>)
    requires |r| > 0 && KeysWellFormed(r, key)
    ensures KeysWellFormed(r[1..], key)
  {
    forall i | 0 <= i < |r| - 1
      ensures WellFormedKey(key(r[1..][i]))
    {
      assert r[1..][i] == r[i + 1];
    }
  }

  lemma ConsWellFormed<T>(y: T, t: seq<T>, key: T -> seq<Piece>)
    requires WellFormedKey(key(y)) && KeysWellFormed(t, key)
    ensures KeysWellFormed([y] + t, key)
  {
    forall i | 0 <= i < |t| + 1
      ensures WellFormedKey(key(([y] + t)[i]))
    {
      if i > 0 {
        assert ([y] + t)[i] == t[i - 1];
      }
    }
  }

  /** Items with a key other than `k` can be moved past the ones that
      `KeyFilter` keeps without changing what it keeps. */
  lemma FilterBehind<T>(y: T, t: seq<T>, rest: seq<T>, key: T -> seq<Piece>, k: seq<Piece>, front: seq<T>)
    requires KeyFilter(t, key, k) == front + KeyFilter(rest, key, k)
    requires key(y) == k ==> front == []
    ensures KeyFilter([y] + t, key, k) == front + KeyFilter([y] + rest, key, k)
  {
    KeyFilterCons(y, t, key, k);
    KeyFilterCons(y, rest, key, k);
    if key(y) == k {
      assert front + KeyFilter(rest, key, k) == KeyFilter(rest, key, k);
    } else {
      assert [] + (front + KeyFilter(rest, key, k)) == front + ([] + KeyFilter(rest, key, k));
    }
  }

  /** `Insert` puts `x` in front of every item with the same key, and the
      items with any one key keep their order. */
  lemma {:induction false} InsertStable<T>(x: T, r: seq<T>, key: T -> seq<Piece>, k: seq<Piece>)
    ensures KeyFilter(Insert(x, r, key), key, k)
            == (if key(x) == k then [x] else []) + KeyFilter(r, key, k)
    decreases |r|
  {
    if |r| == 0 {
      KeyFilterCons(x, [], key, k);
    } else if KeyLe(key(x), key(r[0])) {
      KeyFilterCons(x, r, key, k);
    } else {
      var t := Insert(x, r[1..], key);
      assert Insert(x, r, key) == [r[0]] + t;
      InsertStable(x, r[1..], key, k);
      FilterBehind(r[0], t, r[1..], key, k, if key(x) == k then [x] else []);
      assert r == [r[0]] + r[1..];
    }
  }

  /** Python's `sorted(L, key=key)`: an insertion sort, which gives a
      permutation of `L`. */
  function SortBy<T>(L: seq<T>, key: T -> seq<Piece>): (r: seq<T>)
    ensures multiset(r) == multiset(L)
    decreases |L|
  {
    if |L| == 0 then []
    else
      assert L == [L[0]] + L[1..];
      Insert(L[0], SortBy(L[1..], key), key)
  }

  /** For keys that line up kind by kind, the result of `SortBy` is ordered
      by key. */
  lemma {:induction false} SortBySorted<T>(L: seq<T>, key: T -> seq<Piece>)
    requires KeysWellFormed(L, key)
    ensures SortedBy(SortBy(L, key), key)
    ensures KeysWellFormed(SortBy(L, key), key)
    decreases |L|
  {
    if |L| > 0 {
      TailWellFormed(L, key);
      SortBySorted(L[1..], key);
      InsertSorted(L[0], SortBy(L[1..], key), key);
    }
  }

  /** `sorted` is stable: the items with any one key appear in the result
      in the order they had in `L`. */
  lemma {:induction false} SortByStable<T>(L: seq<T>, key: T -> seq<Piece>, k: seq<Piece>)
    ensures KeyFilter(SortBy(L, key), key, k) == KeyFilter(L, key, k)
    decreases |L|
  {
    if |L| > 0 {
      var s := SortBy(L[1..], key);
      SortByStable(L[1..], key, k);
      InsertStable(L[0], s, key, k);
      KeyFilterCons(L[0], L[1..], key, k);
      assert L == [L[0]] + L[1..];
    }
  }

  /** `natural_sort(L)`: `L` sorted by `natural_key`. */
  function NaturalSort(L: seq<string>): (r: seq<string>)
    ensures multiset(r) == multiset(L)
    ensures forall i, j :: 0 <= i < j < |r| ==> KeyLe(NaturalKey(r[i]), NaturalKey(r[j]))
  {
    SortBySorted(L, NaturalKey);
    SortBy(L, NaturalKey)
  }
}

=== FILE: numbers.dfy ===
/** The numeric helpers of `ufuncts.py`: clamping (`minmax`, alias
    `truncate`), arg-max/arg-min over a dictionary, and the choice of unit
    in `calc_bytes`. Values are mathematical integers. */
module Numbers {
  import opened Wrappers

  function Min(a: int, b: int): int { if b < a then b else a }
  function Max(a: int, b: int): int { if b > a then b else a }

  /** `minmax(_min, _max, val)`, computed as `min(_max, max(_min, val))`. */
  function MinMax(lo: int, hi: int, val: int): (r: int)
    ensures lo <= hi ==> lo <= r <= hi
    ensures lo <= val <= hi ==> r == val
    ensures val < lo <= hi ==> r == lo
    ensures lo <= hi < val ==> r == hi
    ensures hi < lo ==> r == hi
  {
    Min(hi, Max(lo, val))
  }

  /** Clamping twice is clamping once. */
  lemma MinMaxIdempotent(lo: int, hi: int, val: int)
    ensures MinMax(lo, hi, MinMax(lo, hi, val)) == MinMax(lo, hi, val)
  {
  }

  /** Clamping preserves the order of the values it is applied to. */
  lemma MinMaxMonotone(lo: int, hi: int, a: int, b: int)
    requires a <= b
    ensures MinMax(lo, hi, a) <= MinMax(lo, hi, b)
  {
  }

  // ---------------------------------------------------------------------
  // argmax / argmin
  // ---------------------------------------------------------------------

  ghost predicate IsArgMax<K>(d: map<K, int>, k: K) {
    k in d && forall j :: j in d ==> d[j] <= d[k]
  }

  ghost predicate IsArgMin<K>(d: map<K, int>, k: K) {
    k in d && forall j :: j in d ==> d[k] <= d[j]
  }

  /** `argmax(d)` is `max(d, key=d.get)`: a key whose value is largest.
      Python raises `ValueError` on an empty dictionary; here that is
      `None`. Which of several maximal keys is returned depends on the
      dictionary's iteration order, so only maximality is promised. */
  method ArgMax<K>(d: map<K, int>) returns (r: Option<K>)
    ensures r.None? <==> |d| == 0
    ensures r.Some? ==> IsArgMax(d, r.value)
  {
    if |d| == 0 {
      return None;
    }
    var best :| best in d;
    var todo := d.Keys - {best};
    while todo != {}
      invariant todo <= d.Keys
      invariant best in d
      invariant forall j :: j in d && j !in todo ==> d[j] <= d[best]
      decreases todo
    {
      var k :| k in todo;
      if d[k] > d[best] {
        best := k;
      }
      todo := todo - {k};
    }
    return Some(best);
  }

  /** `argmin(d)` is `min(d, key=d.get)`: a key whose value is smallest,
      or `None` where Python raises on an empty dictionary. */
  method ArgMin<K>(d: map<K, int>) returns (r: Option<K>)
    ensures r.None? <==> |d| == 0
    ensures r.Some? ==> IsArgMin(d, r.value)
  {
    if |d| == 0 {
      return None;
    }
    var best :| best in d;
    var todo := d.Keys - {best};
    while todo != {}
      invariant todo <= d.Keys
      invariant best in d
      invariant forall j :: j in d && j !in todo ==> d[best] <= d[j]
      decreases todo
    {
      var k :| k in todo;
      if d[k] < d[best] {
        best := k;
      }
      todo := todo - {k};
    }
    return Some(best);
  }

  /** All maximal keys share one value, so the value at the returned key
      does not depend on how ties are broken. */
  lemma ArgMaxValueUnique<K>(d: map<K, int>, a: K, b: K)
    requires IsArgMax(d, a) && IsArgMax(d, b)
    ensures d[a] == d[b]
  {
  }

  /** The arg-min of a dictionary is the arg-max of its negation. */
  lemma ArgMinIsArgMaxOfNegation<K>(d: map<K, int>, k: K)
    ensures IsArgMin(d, k) <==> IsArgMax(map j | j in d :: -d[j], k)
  {
    var n := map j | j in d :: -d[j];
    assert n.Keys == d.Keys;
    if IsArgMin(d, k) {
      forall j | j in n
        ensures n[j] <= n[k]
      {
      }
    }
    if IsArgMax(n, k) {
      forall j | j in d
        ensures d[k] <= d[j]
      {
        assert n[j] <= n[k];
      }
    }
  }

  // ---------------------------------------------------------------------
  // unit selection in calc_bytes
  // ---------------------------------------------------------------------

  datatype ByteUnit = Bytes | KBytes | MBytes | GBytes {

    /** Number of bytes in one of this unit. */
    function Scale(): nat {
      match this
      case Bytes => 1
      case KBytes => 1024
      case MBytes => 1024 * 1024
      case GBytes => 1024 * 1024 * 1024
    }

    /** The text appended after the number. */
    function Suffix(): string {
      match this
      case Bytes => " bytes"
      case KBytes => " Kbytes"
      case MBytes => " Mbytes"
      case GBytes => " Gbytes"
    }
  }

  /** The unit `calc_bytes(b)` reports `b` in: the largest of kilo-, mega-
      and gigabytes that `b` strictly exceeds, and plain bytes when it
      exceeds none of them. */
  function SelectUnit(b: int): (u: ByteUnit)
    ensures u != Bytes ==> b > u.Scale()
    ensures forall v: ByteUnit :: v.Scale() > u.Scale() ==> b <= v.Scale()
  {
    if b > GBytes.Scale() then GBytes
    else if b > MBytes.Scale() then MBytes
    else if b > KBytes.Scale() then KBytes
    else Bytes
  }

  /** The suffix `calc_bytes(b)` appends, chosen by the same comparisons
      against the literal sizes 1024, 1024**2 and 1024**3. It is the name of
      the unit `SelectUnit` picks, and it stays " bytes" up to and
      including 1024. */
  function CalcBytesSuffix(b: int): (suffix: string)
    ensures suffix == SelectUnit(b).Suffix()
    ensures suffix == " bytes" <==> b <= 1024
  {
    if b > 1073741824 then " Gbytes"
    else if b > 1048576 then " Mbytes"
    else if b > 1024 then " Kbytes"
    else " bytes"
  }

  /** The whole part of the number `calc_bytes(b)` divides out before
      rounding: `b` itself for plain bytes, otherwise the quotient by the
      unit's size. */
  function ByteQuotient(b: int): (q: int)
    ensures SelectUnit(b) == Bytes ==> q == b
    ensures SelectUnit(b) != Bytes ==> 1 <= q
    ensures SelectUnit(b) in {KBytes, MBytes} ==> q <= 1024
    ensures q * SelectUnit(b).Scale() <= b < (q + 1) * SelectUnit(b).Scale()
  {
    var u := SelectUnit(b);
    if u == Bytes then b
    else
      QuotientBounds(b, u.Scale());
      b / u.Scale()
  }

  lemma QuotientBounds(b: int, s: int)
    requires 0 < s < b
    ensures 1 <= b / s
    ensures b <= 1024 * s ==> b / s <= 1024
    ensures (b / s) * s <= b < (b / s + 1) * s
  {
    assert b == s * (b / s) + b % s;
  }

  /** A larger byte count is never reported in a smaller unit. */
  lemma SelectUnitMonotone(a: int, b: int)
    requires a <= b
    ensures SelectUnit(a).Scale() <= SelectUnit(b).Scale()
  {
  }
}

=== FILE: paths.dfy ===
/** The file-name helpers of `ufuncts.py`: `basename`, `basenames`,
    `extension` and `split_ext`. The platform's path separator `os.sep` is
    the parameter `sep`; on POSIX systems it is '/' itself. */
module Paths {
  import opened Wrappers
  import opened Text

  /** `basename(filename)`: the text after the last `sep` if there is one,
      otherwise the text after the last '/', otherwise the whole name. */
  function Basename(filename: string, sep: char): (r: string)
    ensures IsSuffix(r, filename)
    ensures sep in filename ==> sep !in r && IsSuffix([sep] + r, filename)
    ensures sep !in filename && '/' in filename ==> '/' !in r && IsSuffix(['/'] + r, filename)
    ensures sep !in filename && '/' !in filename ==> r == filename
  {
    if sep in filename then
      LastPieceIsSuffix(filename, sep);
      Last(Split(filename, sep))
    else if '/' in filename then
      LastPieceIsSuffix(filename, '/');
      Last(Split(filename, '/'))
    else filename
  }

  /** The postcondition of `Basename` leaves only one candidate: a suffix
      that follows a separator and contains none is the last component. */
  lemma LastComponentUnique(filename: string, c: char, r: string)
    requires c !in r && IsSuffix([c] + r, filename)
    ensures Last(Split(filename, c)) == r
  {
    var n := |filename|;
    assert filename[n - |r| - 1] == c;
    LastPieceIsSuffix(filename, c);
    var l := Last(Split(filename, c));
    assert filename[n - |l| - 1] == c;
  }

  /** `basenames(fileslist)`: the base name of every path, in order. */
  function Basenames(fileslist: seq<string>, sep: char): (r: seq<string>)
    ensures |r| == |fileslist|
    ensures forall i :: 0 <= i < |r| ==> IsSuffix(r[i], fileslist[i])
    ensures forall i :: 0 <= i < |r| && sep in fileslist[i] ==> sep !in r[i]
    ensures forall i :: 0 <= i < |r| ==> r[i] == Basename(fileslist[i], sep)
  {
    seq(|fileslist|, i requires 0 <= i < |fileslist| => Basename(fileslist[i], sep))
  }

  /** The list comprehension works path by path: the base names of two
      lists put together are the base names of each, put together. */
  lemma BasenamesAppend(a: seq<string>, b: seq<string>, sep: char)
    ensures Basenames(a + b, sep) == Basenames(a, sep) + Basenames(b, sep)
  {
  }

  /** `extension(filename)`: `None` when the name has no '.', otherwise
      the text after the last '.'. The whole name is searched, directories
      included. */
  function Extension(filename: string): (r: Option<string>)
    ensures r.None? <==> '.' !in filename
    ensures r.Some? ==> '.' !in r.value && IsSuffix(['.'] + r.value, filename)
  {
    if '.' !in filename then None
    else
      LastPieceIsSuffix(filename, '.');
      Some(Last(Split(filename, '.')))
  }

  /** `split_ext(filename)`: the base name cut at every '.', or the empty
      tuple when the base name has no '.'. */
  function SplitExt(filename: string, sep: char): (r: seq<string>)
    ensures var b := Basename(filename, sep);
            && ('.' !in b <==> r == [])
            && ('.' in b ==> |r| >= 2 && Join(r, '.') == b)
    ensures forall i :: 0 <= i < |r| ==> '.' !in r[i]
  {
    var b := Basename(filename, sep);
    if '.' !in b then []
    else
      SplitSingle(b, '.');
      JoinSplit(b, '.');
      Split(b, '.')
  }

  /** The pieces of `split_ext` are exactly the '.'-free pieces whose join
      is the base name: splitting them back up recovers them. */
  lemma SplitExtRoundTrip(filename: string, sep: char)
    requires SplitExt(filename, sep) != []
    ensures Split(Join(SplitExt(filename, sep), '.'), '.') == SplitExt(filename, sep)
  {
    SplitJoin(SplitExt(filename, sep), '.');
  }

  /** A dotted directory name counts: the extension of "a.b/c" is "b/c". */
  lemma ExtensionSeesDirectories()
    ensures Extension("a.b/c") == Some("b/c")
  {
    assert '.' in "a.b/c" by { assert "a.b/c"[1] == '.'; }
    SplitSingle("b/c", '.');
    assert ".b/c"[1..] == "b/c";
    assert Split(".b/c", '.') == ["", "b/c"];
    SplitPrefix("a", ".b/c", '.');
    assert "a" + ".b/c" == "a.b/c";
    assert "a" + "" == "a";
  }
}

=== FILE: safewrite.dfy ===
/** The name computation at the start of `safe_overwrite`: the destination
    and the temporary extension are stripped of surrounding white space, the
    extension gets a leading '.' if it has none, and the temporary file is
    the destination followed by that extension. The encoding is dropped for
    binary modes. The file operations that follow are not modelled. */
module SafeWrite {
  import opened Wrappers
  import opened Text

  /** The temporary extension as `safe_overwrite` uses it. */
  function NormalizeExtension(ext: string): (r: string)
    ensures |r| > 0 && r[0] == '.'
    ensures IsStripped(r)
    ensures r == Strip(ext) || r == ['.'] + Strip(ext)
    ensures r == Strip(ext) <==> (|Strip(ext)| > 0 && Strip(ext)[0] == '.')
  {
    var e := Strip(ext);
    if |e| > 0 && e[0] == '.' then e
    else
      var r := ['.'] + e;
      assert r[|r| - 1] == if |e| == 0 then '.' else e[|e| - 1];
      r
  }

  /** What `safe_overwrite` settles before touching any file. */
  datatype WritePlan = WritePlan(destination: string, temp: string, encoding: Option<string>)

  /** Lines 228-233 of `safe_overwrite(filename, data, mode, encoding,
      temp_extension)`. The caller's `encoding` may itself be `None`. */
  function Plan(filename: string, mode: string, encoding: Option<string>, tempExtension: string): (p: WritePlan)
    ensures p.destination == Strip(filename)
    ensures |p.temp| > |p.destination| && p.temp[..|p.destination|] == p.destination
    ensures p.temp[|p.destination|] == '.'
    ensures p.temp[|p.destination|..] == NormalizeExtension(tempExtension)
    ensures 'b' in mode ==> p.encoding.None?
    ensures 'b' !in mode ==> p.encoding == encoding
  {
    var dest := Strip(filename);
    var temp := dest + NormalizeExtension(tempExtension);
    assert temp[..|dest|] == dest;
    WritePlan(dest, temp, if 'b' in mode then None else encoding)
  }

  /** Normalizing an already normalized extension changes nothing. */
  lemma NormalizeExtensionIdempotent(ext: string)
    ensures NormalizeExtension(NormalizeExtension(ext)) == NormalizeExtension(ext)
  {
    var r := NormalizeExtension(ext);
    StripPadded([], r, []);
    assert [] + r + [] == r;
  }

  /** Writing the leading '.' or leaving it out names the same temporary
      file, for any extension that does not start with white space or a
      '.' of its own. */
  lemma LeadingDotOptional(ext: string)
    requires |ext| == 0 || (!IsSpace(ext[0]) && ext[0] != '.')
    ensures NormalizeExtension(['.'] + ext) == NormalizeExtension(ext)
  {
    StripCons('.', ext);
  }

  /** `safe_overwrite(f, d, temp_extension="temp")` and
      `safe_overwrite(f, d, temp_extension=".temp")` use the same file. */
  lemma TempAndDotTempAgree(filename: string, mode: string, encoding: Option<string>)
    ensures Plan(filename, mode, encoding, "temp") == Plan(filename, mode, encoding, ".temp")
  {
    LeadingDotOptional("temp");
    assert ['.'] + "temp" == ".temp";
  }
}

=== FILE: text.dfy ===
/** Character classes and string helpers shared by the rest of the model.

    Strings are `seq<char>`. The character tests agree with Python's on the
    ASCII range: `IsDigit` is the regular-expression class `\d` and
    `str.isdigit` restricted to ASCII, `IsSpace` is `str.isspace` restricted
    to ASCII, and `ToLower` is `str.lower` restricted to ASCII. */
module Text {

  predicate IsDigit(c: char) {
    '0' <= c <= '9'
  }

  /** ASCII characters for which Python's `str.isspace` holds: tab, line
      feed, vertical tab, form feed, carriage return, the four separators
      0x1C-0x1F, and space. */
  predicate IsSpace(c: char) {
    var n := c as int;
    n == 32 || 9 <= n <= 13 || 28 <= n <= 31
  }

  predicate NoDigit(s: string) {
    forall i :: 0 <= i < |s| ==> !IsDigit(s[i])
  }

  predicate AllDigits(s: string) {
    forall i :: 0 <= i < |s| ==> IsDigit(s[i])
  }

  /** `str.isdigit()` on ASCII text: non-empty and made of digits only. */
  predicate IsDigitString(s: string) {
    |s| > 0 && AllDigits(s)
  }

  predicate NoUpper(s: string) {
    forall i :: 0 <= i < |s| ==> !('A' <= s[i] <= 'Z')
  }

  function ToLower(c: char): (r: char)
    ensures IsDigit(r) <==> IsDigit(c)
    ensures IsDigit(c) ==> r == c
    ensures !('A' <= r <= 'Z')
    ensures 'a' <= c <= 'z' ==> r == c
  {
    if 'A' <= c <= 'Z' then (c as int + 32) as char else c
  }

  /** `str.lower` on an ASCII string: character by character. */
  function Lower(s: string): (r: string)
    ensures |r| == |s|
    ensures forall i :: 0 <= i < |s| ==> r[i] == ToLower(s[i])
    ensures NoUpper(r)
    ensures NoDigit(s) ==> NoDigit(r)
    ensures AllDigits(s) ==> r == s
  {
    seq(|s|, i requires 0 <= i < |s| => ToLower(s[i]))
  }

  /** Lowercasing twice is lowercasing once. */
  lemma LowerIdempotent(s: string)
    ensures Lower(Lower(s)) == Lower(s)
  {
  }

  predicate IsSuffix(r: string, s: string) {
    |r| <= |s| && s[|s| - |r|..] == r
  }

  // ---------------------------------------------------------------------
  // str.strip()
  // ---------------------------------------------------------------------

  predicate AllSpace(s: string) {
    forall i :: 0 <= i < |s| ==> IsSpace(s[i])
  }

  /** Neither the first nor the last character is white space. */
  predicate IsStripped(s: string) {
    |s| == 0 || (!IsSpace(s[0]) && !IsSpace(s[|s| - 1]))
  }

  /** The index of the first character at or after `i` that is not white
      space, or `|s|` when there is none. */
  function SkipSpace(s: string, i: nat): (n: nat)
    requires i <= |s|
    ensures i <= n <= |s|
    ensures forall j :: i <= j < n ==> IsSpace(s[j])
    ensures n < |s| ==> !IsSpace(s[n])
    decreases |s| - i
  {
    if i < |s| && IsSpace(s[i]) then SkipSpace(s, i + 1) else i
  }

  /** Scanning back from `j`, no further than `lo`: the index just after the
      last character that is not white space, or `lo` when there is none. */
  function SkipSpaceBack(s: string, lo: nat, j: nat): (n: nat)
    requires lo <= j <= |s|
    ensures lo <= n <= j
    ensures forall k :: n <= k < j ==> IsSpace(s[k])
    ensures n > lo ==> !IsSpace(s[n - 1])
    decreases j
  {
    if j > lo && IsSpace(s[j - 1]) then SkipSpaceBack(s, lo, j - 1) else j
  }

  /** The postcondition of `SkipSpace` has one solution only. */
  lemma SkipSpaceIs(s: string, i: nat, n: nat)
    requires i <= n <= |s|
    requires forall j :: i <= j < n ==> IsSpace(s[j])
    requires n < |s| ==> !IsSpace(s[n])
    ensures SkipSpace(s, i) == n
  {
  }

  /** The postcondition of `SkipSpaceBack` has one solution only. */
  lemma SkipSpaceBackIs(s: string, lo: nat, j: nat, n: nat)
    requires lo <= n <= j <= |s|
    requires forall k :: n <= k < j ==> IsSpace(s[k])
    requires n > lo ==> !IsSpace(s[n - 1])
    ensures SkipSpaceBack(s, lo, j) == n
  {
  }

  /** `str.strip()` with no argument: skip white space from the front,
      then from the back, and keep what lies between. */
  function Strip(s: string): (r: string)
    ensures IsStripped(r)
    ensures |r| <= |s|
  {
    var a := SkipSpace(s, 0);
    var b := SkipSpaceBack(s, a, |s|);
    s[a..b]
  }

  /** What `Strip` leaves is a slice of `s` with nothing but white space
      around it. */
  lemma StripTrims(s: string)
    ensures var r := Strip(s);
            exists k :: 0 <= k <= |s| - |r| && s[k..k + |r|] == r
                        && AllSpace(s[..k]) && AllSpace(s[k + |r|..])
  {
    var a := SkipSpace(s, 0);
    var b := SkipSpaceBack(s, a, |s|);
    assert s[a..a + |Strip(s)|] == Strip(s);
    assert AllSpace(s[..a]);
    assert AllSpace(s[b..]);
  }

  /** Together with the postcondition of `Strip`, this pins the result
      down: padding a stripped string with white space on either side and
      stripping gives the string back. */
  lemma StripPadded(a: string, m: string, b: string)
    requires AllSpace(a) && AllSpace(b) && IsStripped(m)
    ensures Strip(a + m + b) == m
  {
    var x := a + m + b;
    var e := |a| + |m|;
    assert forall j :: 0 <= j < |a| ==> x[j] == a[j];
    assert forall k :: e <= k < |x| ==> x[k] == b[k - e];
    if |m| == 0 {
      assert forall j :: 0 <= j < |x| ==> IsSpace(x[j]) by {
        forall j | 0 <= j < |x|
          ensures IsSpace(x[j])
        {
          if j < |a| {
            assert x[j] == a[j];
          } else {
            assert x[j] == b[j - |a|];
          }
        }
      }
      SkipSpaceIs(x, 0, |x|);
      SkipSpaceBackIs(x, |x|, |x|, |x|);
    } else {
      assert x[|a|] == m[0];
      assert x[e - 1] == m[|m| - 1];
      SkipSpaceIs(x, 0, |a|);
      SkipSpaceBackIs(x, |a|, |x|, e);
      assert x[|a|..e] == m;
    }
  }

  /** A leading character that is not white space survives `Strip`, and
      the rest is stripped as if it stood alone, provided the rest does not
      start with white space either. */
  lemma StripCons(c: char, t: string)
    requires !IsSpace(c)
    requires |t| == 0 || !IsSpace(t[0])
    ensures Strip([c] + t) == [c] + Strip(t)
  {
    var x := [c] + t;
    assert x[0] == c;
    assert forall k :: 1 <= k < |x| ==> x[k] == t[k - 1];
    SkipSpaceIs(x, 0, 0);
    SkipSpaceIs(t, 0, 0);
    var n := SkipSpaceBack(t, 0, |t|);
    SkipSpaceBackIs(x, 0, |x|, n + 1);
    assert x[0..n + 1] == [c] + t[0..n];
  }

  lemma StripIdempotent(s: string)
    ensures Strip(Strip(s)) == Strip(s)
  {
    var m := Strip(s);
    StripPadded([], m, []);
    assert [] + m + [] == m;
  }

  // ---------------------------------------------------------------------
  // str.split(c) for a one-character separator, and its inverse join
  // ---------------------------------------------------------------------

  /** `s.split(c)`: the pieces of `s` between consecutive occurrences of
      `c`, scanned one character at a time. */
  function Split(s: string, c: char): (parts: seq<string>)
    ensures |parts| >= 1
    ensures forall i :: 0 <= i < |parts| ==> c !in parts[i]
    decreases |s|
  {
    if |s| == 0 then [[]]
    else
      var rest := Split(s[1..], c);
      if s[0] == c then [[]] + rest
      else [[s[0]] + rest[0]] + rest[1..]
  }

  /** `c.join(parts)`. */
  function Join(parts: seq<string>, c: char): string
    decreases |parts|
  {
    if |parts| == 0 then []
    else if |parts| == 1 then parts[0]
    else parts[0] + [c] + Join(parts[1..], c)
  }

  function Last(parts: seq<string>): string
    requires |parts| >= 1
  {
    parts[|parts| - 1]
  }

  /** Joining the pieces of a split with the same separator restores the
      string. */
  lemma {:induction false} JoinSplit(s: string, c: char)
    ensures Join(Split(s, c), c) == s
    decreases |s|
  {
    if |s| > 0 {
      var rest := Split(s[1..], c);
      JoinSplit(s[1..], c);
      if s[0] == c {
        assert ([[]] + rest)[1..] == rest;
        assert s == [c] + s[1..];
      } else if |rest| == 1 {
        assert s == [s[0]] + s[1..];
      } else {
        var parts := [[s[0]] + rest[0]] + rest[1..];
        assert parts[1..] == rest[1..];
        assert Join(rest, c) == rest[0] + [c] + Join(rest[1..], c);
        assert s == [s[0]] + s[1..];
      }
    }
  }

  /** Splitting a string that does not contain the separator yields the
      string itself as the only piece, and only such strings split into
      one piece. */
  lemma SplitSingle(s: string, c: char)
    ensures c !in s <==> |Split(s, c)| == 1
    ensures c !in s ==> Split(s, c) == [s]
  {
    var parts := Split(s, c);
    JoinSplit(s, c);
    if |parts| == 1 {
      assert Join(parts, c) == parts[0];
    } else {
      assert Join(parts, c) == parts[0] + [c] + Join(parts[1..], c);
      assert s[|parts[0]|] == c;
    }
  }

  /** Splitting a string whose first piece `p` is free of the separator
      glues `p` onto the first piece of the rest. */
  lemma {:induction false} SplitPrefix(p: string, t: string, c: char)
    requires c !in p
    ensures Split(p + t, c) == [p + Split(t, c)[0]] + Split(t, c)[1..]
    decreases |p|
  {
    if |p| > 0 {
      assert (p + t)[1..] == p[1..] + t;
      assert (p + t)[0] == p[0];
      SplitPrefix(p[1..], t, c);
      assert [p[0]] + (p[1..] + Split(t, c)[0]) == p + Split(t, c)[0];
    } else {
      assert p + t == t;
      assert p + Split(t, c)[0] == Split(t, c)[0];
      assert Split(t, c) == [Split(t, c)[0]] + Split(t, c)[1..];
    }
  }

  /** Splitting the join of separator-free pieces gives the pieces back. */
  lemma {:induction false} SplitJoin(parts: seq<string>, c: char)
    requires |parts| >= 1
    requires forall i :: 0 <= i < |parts| ==> c !in parts[i]
    ensures Split(Join(parts, c), c) == parts
    decreases |parts|
  {
    if |parts| == 1 {
      SplitSingle(parts[0], c);
    } else {
      var u := Join(parts[1..], c);
      SplitJoin(parts[1..], c);
      SplitPrefix(parts[0], [c] + u, c);
      assert ([c] + u)[0] == c && ([c] + u)[1..] == u;
      assert Join(parts, c) == parts[0] + ([c] + u);
      assert Split([c] + u, c) == [[]] + Split(u, c);
      assert parts[0] + [] == parts[0];
      assert Split(Join(parts, c), c) == [parts[0]] + Split(u, c);
      assert parts == [parts[0]] + parts[1..];
    }
  }

  /** A suffix of the tail is a suffix of the whole. */
  lemma SuffixOfTail(x: string, s: string)
    requires |s| > 0 && IsSuffix(x, s[1..])
    ensures IsSuffix(x, s)
  {
    assert s[|s| - |x|..] == s[1..][|s| - 1 - |x|..];
  }

  /** The last piece of a split is a suffix of the string, and when the
      separator occurs it is the text after the last separator. */
  lemma {:induction false} LastPieceIsSuffix(s: string, c: char)
    ensures IsSuffix(Last(Split(s, c)), s)
    ensures c in s ==> IsSuffix([c] + Last(Split(s, c)), s)
    decreases |s|
  {
    if |s| > 0 {
      var t := s[1..];
      var rest := Split(t, c);
      var parts := Split(s, c);
      LastPieceIsSuffix(t, c);
      SplitSingle(t, c);
      assert s == [s[0]] + t;
      if s[0] == c {
        assert parts == [[]] + rest;
        assert Last(parts) == Last(rest);
        SuffixOfTail(Last(rest), s);
        if c in t {
          SuffixOfTail([c] + Last(rest), s);
        } else {
          assert [c] + Last(rest) == s;
        }
      } else if |rest| == 1 {
        assert rest == [t];
        assert Last(parts) == s;
        assert c !in s;
      } else {
        assert parts == [[s[0]] + rest[0]] + rest[1..];
        assert Last(parts) == Last(rest);
        SuffixOfTail(Last(rest), s);
        SuffixOfTail([c] + Last(rest), s);
      }
    }
  }
}

=== FILE: wrappers.dfy ===
/** The optional value used wherever the Python helpers return `None` or
    raise instead of producing a value. */
module Wrappers {

  datatype Option<+T> = None | Some(value: T)
}
